=== FILE: README.md ===
# Integration: rectangle and trapezoid estimates of one integral

square.py and trapez.py estimate the integral of a fixed integrand over
[0, 1000]. They run the same pipeline:

- `integrand` walks the coefficient dictionary `params` in descending key
  order. The entry of rank i contributes `v * x**i`, and every entry also
  adds `sin(x)`.
- `get_points_list` samples the integrand at 0, step, 2 step, ... while the
  point does not exceed 1000.
- `get_squares` / `get_trapez` turn each sample into a cell
  `[x - step/2, x + step/2, y]`. They then cut the first cell's left edge
  back to its point and the last cell's right edge back to its point.
- `sum_area` adds rectangles `(|x2| - |x1|) * |y|`.
- `sum_area_trapez` adds trapezoids between neighbouring cells. Each one
  takes its width from the left cell.
- `time_measure` chains these for one step.
- The main loop runs 13 passes, starting with step 1 and halving it after
  each pass. It records each pass's step and result.

The Dafny modules follow this structure:

| module | file | holds |
|---|---|---|
| `Arith` | arith.dfy | small facts of real arithmetic the proofs use |
| `Integrand` | integrand.dfy | Python's string order, the descending listing of a dictionary's keys, the dict literal, the integrand |
| `Sampler` | sampler.dfy | `get_points_list` and the grid it produces |
| `Cells` | cells.dfy | `get_squares` = `get_trapez`, Python's `abs`, and the cells of one pass |
| `Halving` | halving.dfy | the step of each pass, 1 / 2^i |
| `Square` | square.dfy | `sum_area`, `time_measure` and the main loop of square.py |
| `Trapez` | trapez.dfy | `sum_area_trapez`, `time_measure` and the main loop of trapez.py, plus the step-wide trapezoid rule |

Modelling choices:

- The loops of the source are methods with loops:
  - the integrand's accumulation;
  - the sampler's `while`;
  - the cell builder, which appends cells and then patches the first and
    last cell;
  - both accumulators;
  - the main loop.
- Each method is proved against a function:
  - `IntegrandValue`, `Grid`/`Samples`, `CellsOf`, `RectSum`, `TrapSum`;
  - `Estimates` for the main loop.
- The properties are lemmas about those functions.
- Coordinates are exact reals.
- The module-level `params` is an explicit `map` argument, and `np.sin` is
  the function parameter `sin`.
- `coo[0]` on an empty list is Python's `IndexError`. It is modelled as
  `Failure(IndexError)`.

The model keeps the code's behaviour at the edges:

- The integrand does not fail on an empty dictionary; it gives 0.
- The sampler returns two empty lists when start > stop.
- `sum_area_trapez` returns 0 for fewer than two cells.
- The cells' widths add up to the distance from the first to the last
  sample. This is 1000 in the program's passes, but it is not `stop - start`
  in general.

## Model

| member | source | states |
|---|---|---|
| `Integrand.StrLt` | square.py:18 | Python's `<` on `str`, which `sorted` applies to the keys: lexicographic by code point, a proper prefix being smaller |
| `Integrand.DictOf` | square.py:7-13 | the dictionary a dict display denotes, each pair assigning its key in turn; `ParamsLiteral` is the program's display |
| `Integrand.Pow` | square.py:19 | `x**i` for a natural exponent, 1 for i = 0 |
| `Integrand.Poly` | square.py:19 | the sum of `cs[i] * x**i` over the coefficients |
| `Integrand.IntegrandValue` | square.py:16-20 | the value `integrand(x)` computes: the coefficients in descending key order times the powers of x, plus `sin(x)` once per entry |
| `Integrand.StrLtIrreflexive` | square.py:18 | Python's string `<`, which `sorted` uses, is irreflexive |
| `Integrand.StrLtTransitive` | square.py:18 | string `<` is transitive |
| `Integrand.StrLtTotal` | square.py:18 | any two different strings are ordered one way or the other |
| `Integrand.MaxExists` | square.py:18 | every non-empty set of keys has a largest key |
| `Integrand.Listing` | square.py:18 | the keys in the order `sorted(params.items())[::-1]` visits them, one per key |
| `Integrand.ListingSpec` | square.py:18 | that order is strictly descending and lists exactly the dictionary's keys |
| `Integrand.ConsMax` | square.py:18 | the largest key followed by a descending listing of the other keys is a descending listing of all of them |
| `Integrand.ListingUnique` | square.py:18 | two descending listings of the same keys are equal, so the visiting order depends only on the key set |
| `Integrand.DescendingTail` | square.py:18 | in a descending listing, the keys after the first are exactly the keys other than the first |
| `Integrand.DescendingCard` | square.py:18 | a descending listing has no repeats: it has as many keys as it is long |
| `Integrand.AboveIsPrefix` | square.py:18 | the keys above the i-th key are exactly the i keys visited before it |
| `Integrand.RankIsExponent` | trapez.py:18-19 | the key visited i-th, whose value multiplies `x**i`, has exactly i keys above it in string order |
| `Integrand.DictOfKeys` | square.py:7-13 | the keys of a dict literal are exactly the keys written in it |
| `Integrand.DictOfLastWins` | square.py:7-13 | a key written several times keeps the value written last |
| `Integrand.ParamsDict` | square.py:7-13 | the program's literal, with "c" written twice, is {a: 2, b: 5, c: 7, z: 4} |
| `Integrand.ParamsNoKeywordClash` | square.py:7-13 | no key of the program's dictionary is func, start, stop, step or x, the parameters that `**params` could bind in `get_points_list` (square.py:22) and `integrand` (square.py:16) |
| `Integrand.ParamsListing` | square.py:18 | its keys are visited in the order z, c, b, a |
| `Integrand.CoefficientsOf` | square.py:18-19 | given the listing of the keys, the i-th coefficient is the value of the i-th listed key |
| `Integrand.ParamsCoefficients` | square.py:18-19 | the coefficients of 1, x, x^2, x^3 are 4, 7, 5, 2 |
| `Integrand.CubicPoly` | square.py:19 | the coefficients 4, 7, 5, 2 give 4 + 7x + 5x^2 + 2x^3 |
| `Integrand.ParamsIntegrand` | square.py:16-20 | the program's integrand is 4 + 7x + 5x^2 + 2x^3 + 4 sin(x) |
| `Integrand.SortedItems` | square.py:18 | `sorted(params.items())[::-1]`: each key with its value, in descending key order, one entry per key |
| `Integrand.SortedItemsDesc` | square.py:18 | repeatedly taking the largest remaining key yields the entries of `sorted(params.items())[::-1]` |
| `Integrand.SortedItemsCount` | square.py:18 | there is one sorted entry per key |
| `Integrand.SumTerms` | trapez.py:17-20 | the loop's total is the polynomial with the entries' values as coefficients of x^0, x^1, ..., plus sin(x) once per entry |
| `Integrand.Evaluate` | square.py:16-20 | `integrand(x, **kwargs)` equals `IntegrandValue(params, sin, x)` whatever `kwargs` is |
| `Sampler.Point` | square.py:32 | the point after i executions of `start += step` |
| `Sampler.Grid` | square.py:30 | the first n points, as `x2` collects them |
| `Sampler.Samples` | square.py:31 | the integrand's values at the points, as `y2` collects them |
| `Sampler.PointClosed` | square.py:29-32 | the i-th point reached by `start += step` is start + i * step |
| `Sampler.PointMonotone` | square.py:29-32 | with a positive step the points strictly increase |
| `Sampler.GridCount` | square.py:29 | the point count n has its last point at or below stop and the next point past it, so n = floor((stop - start) / step) + 1, and n = 0 exactly when start > stop |
| `Sampler.CountExact` | square.py:29 | any count whose last point is at or below stop and whose next point is past it is the grid's count |
| `Sampler.CountAbove` | square.py:29 | a point at or below stop lies within the count |
| `Sampler.SamplesSnoc` | square.py:30-31 | appending a point appends its integrand value |
| `Cells.ConstantSamples` | square.py:31 | an integrand of constant magnitude gives samples of that magnitude |
| `Sampler.GetPointsList` | square.py:22-33 | the loop returns the grid points start, start + step, ... up to stop and the integrand's value at each, and two empty lists when start > stop whatever the step; `func` and `kwargs` are never used |
| `Sampler.AppendSample` | trapez.py:30-31 | one pass appends the point and the integrand's value there |
| `Sampler.GridPoints` | trapez.py:29-32 | every sample, the last included, is start + i * step, and every later sample is larger |
| `Sampler.GridInRange` | trapez.py:29-32 | when there are samples, start <= stop, the first sample is start and every sample lies in [start, stop] |
| `Cells.Abs` | square.py:51 | Python's `abs` on a number, which the area formulas apply to edges and heights |
| `Cells.CellsOf` | square.py:37-44 | the cells `get_squares` returns: one per zipped pair, [x - step/2, x + step/2, y], the first starting at its own point and the last ending at its own point; `IndexError` for no pairs |
| `Cells.RawCell` | square.py:38-42 | the cell `[x - step/2, x + step/2, y]` appended for one pair, before the edges are patched |
| `Cells.GetCells` | square.py:35-45 | appending one cell per pair and then patching the first and last cell gives `CellsOf`; no pairs is an `IndexError` |
| `Cells.CellsShape` | trapez.py:35-44 | construction fails exactly when xs or ys is empty; otherwise there is one cell per zipped pair, holding that pair's value |
| `Cells.CellEdges` | square.py:38-44 | the first cell begins at its point, the last ends at its point, and every other edge is half a step from its point; a single sample gives [x, x, y] |
| `Cells.GridCellsTiled` | square.py:38-44 | on points step apart, each cell ends where the next begins, from the first point to the last |
| `Cells.Telescope` | square.py:38-44 | the widths of tiled cells add up to the distance between the outer edges |
| `Cells.GridCellsWidth` | square.py:38-44 | the cells over n points step apart are (n - 1) * step wide in all |
| `Cells.GridCellsOnAxis` | trapez.py:37-44 | on points a positive step apart from a non-negative start, every cell has 0 <= x1 <= x2 |
| `Cells.SweepCells` | square.py:69-70 | the cells of one pass: one per point of [0, 1000] |
| `Cells.SweepOnAxis` | trapez.py:58-59 | every cell of a pass has 0 <= x1 <= x2 |
| `Cells.SweepHeights` | trapez.py:58-59 | an integrand of constant magnitude gives every cell of a pass that magnitude |
| `Halving.Half` | square.py:90 | the step of every pass is positive |
| `Halving.HalfIsReciprocal` | square.py:78-90 | the step of pass i is 1 / 2^i |
| `Halving.SweepGridCount` | square.py:69 | pass i samples 1000 * 2^i + 1 points, and the last one is exactly 1000 |
| `Halving.SweepSpan` | square.py:69-70 | in every pass the cells begin at 0, end at 1000, and their widths add up to 1000 |
| `Square.Area` | square.py:51 | `(abs(x2) - abs(x1)) * abs(y1)`, the area of one cell |
| `Square.RectSum` | square.py:49-53 | the cells' areas added up |
| `Square.SumArea` | square.py:47-53 | `sum_area` adds (abs(x2) - abs(x1)) * abs(y) over the cells, 0 for none; `step` is never read |
| `Square.AreaOnAxis` | square.py:51 | on the non-negative axis a cell's area is its width times the magnitude of its height, and it is non-negative when x1 <= x2 |
| `Square.RectSumNonNegative` | square.py:47-53 | cells on the non-negative axis with x1 <= x2 have a non-negative total |
| `Square.RectConstantHeight` | square.py:50-52 | rectangles on the non-negative axis (0 <= x1 and 0 <= x2) of height magnitude h add up to h times their total width |
| `Square.SquareEstimate` | square.py:69-71 | the result of `time_measure(get_squares, sum_area, step)`: the rectangle sum over the cells of the samples of [0, 1000] |
| `Square.Estimates` | square.py:79-90 | `results_square` after n passes: the estimate of each pass in turn, with step 1/2^j for pass j |
| `Square.TimeMeasure` | square.py:66-75 | `time_measure(get_squares, sum_area, step)` returns `SquareEstimate`, the estimate over [0, 1000] (for a dictionary with `Integrand.NoKeywordClash`, as the program's; see Left out) |
| `Square.EstimatesSnoc` | square.py:88 | recording one more pass appends its estimate |
| `Square.Sweep` | square.py:85-90 | the loop makes 13 passes with steps 1, 1/2, ..., 1/2^12, recording each step and that pass's estimate in lockstep; the step list and the result list both have 13 entries (for a dictionary with `Integrand.NoKeywordClash`; see Left out) |
| `Square.SquareEstimateNonNegative` | square.py:47-53 | every pass's estimate is non-negative |
| `Square.SquareConstant` | square.py:66-71 | for an integrand of constant magnitude abs(k) every pass gives exactly 1000 abs(k), the integral over [0, 1000] |
| `Trapez.TrapArea` | trapez.py:50-51 | `((abs(y_i) + abs(y_i+1)) * (abs(x2_i) - abs(x1_i))) / 2`, the trapezoid between cell i and cell i + 1 with cell i's width |
| `Trapez.PairSum` | trapez.py:49-52 | the first m of those trapezoids added up |
| `Trapez.TrapSum` | trapez.py:48-53 | all of them, for `range(len(cords) - 1)`; 0 for fewer than two cells |
| `Trapez.SumAreaTrapez` | trapez.py:46-53 | `sum_area_trapez` adds the trapezoids between consecutive cells, each with the left cell's width; 0 for fewer than two cells; `step` is never read |
| `Trapez.LeftWidthsPrefix` | trapez.py:51 | the widths the trapezoids use are those of all cells but the last |
| `Trapez.TrapAreaOnAxis` | trapez.py:50-51 | on the non-negative axis a trapezoid is the mean of the two heights' magnitudes times the left cell's width, and non-negative when x1 <= x2 |
| `Trapez.PairSumNonNegative` | trapez.py:46-53 | cells on the non-negative axis with 0 <= x1 <= x2 each give non-negative trapezoid sums |
| `Trapez.LastEdgesUnread` | trapez.py:49-51 | the last cell's edges never change the sum: only its height is read |
| `Trapez.PairSumLastUnread` | trapez.py:49-51 | the first m trapezoids depend only on cells 0 to m - 1 and on the height of cell m |
| `Trapez.TrapConstantHeight` | trapez.py:49-53 | on the non-negative axis (0 <= x1 and 0 <= x2), trapezoids of height magnitude h add up to h times the widths of all cells but the last |
| `Trapez.TrapAreaConstant` | trapez.py:50-51 | between two cells of height magnitude h, the left one on the non-negative axis, the trapezoid is h times the left cell's width |
| `Trapez.GridTrapWidth` | trapez.py:37-44 | on n >= 2 points step apart, the cells but the last are (n - 1) * step - step / 2 wide in all |
| `Trapez.TrapezEstimate` | trapez.py:58-60 | the result of `time_measure(get_trapez, sum_area_trapez, step)`: the trapezoid sum over the cells of the samples of [0, 1000] |
| `Trapez.Estimates` | trapez.py:68-79 | `results_trapez` after n passes: the estimate of each pass in turn, with step 1/2^j for pass j |
| `Trapez.TimeMeasure` | trapez.py:55-64 | `time_measure(get_trapez, sum_area_trapez, step)` returns `TrapezEstimate`, the estimate over [0, 1000] (for a dictionary with `Integrand.NoKeywordClash`, as the program's; see Left out) |
| `Trapez.EstimatesSnoc` | trapez.py:77 | recording one more pass appends its estimate |
| `Trapez.Sweep` | trapez.py:74-79 | the loop makes 13 passes with steps 1, 1/2, ..., 1/2^12, recording each step and that pass's estimate in lockstep; the step list and the result list both have 13 entries (for a dictionary with `Integrand.NoKeywordClash`; see Left out) |
| `Trapez.TrapezEstimateNonNegative` | trapez.py:46-53 | every pass's estimate is non-negative |
| `Trapez.TrapezConstant` | trapez.py:49-53 | for an integrand of constant magnitude abs(k), pass i gives abs(k) (1000 - step / 2), not 1000 abs(k) |
| `Trapez.SweepTrapConstant` | trapez.py:49-53 | a pass whose cells all have height magnitude abs(k) gives abs(k) (1000 - step / 2) |
| `Trapez.SweepTrapWidth` | trapez.py:37-44 | in pass i the cells but the last are 1000 - step / 2 wide in all |
| `Trapez.ConstantTrapSum` | trapez.py:49-53 | any two or more cells of height magnitude abs(k) on the non-negative axis give abs(k) times the widths of all cells but the last |
| `Trapez.PassTrapSum` | trapez.py:49-53 | such cells, whose widths but the last add up to 1000 - step / 2 as in pass i, give abs(k) (1000 - step / 2) |
| `Trapez.SumAreaTrapezByStep` | trapez.py:46-53 | the corrected accumulator, with `step` as every trapezoid's width, computes `StepTrapSum` |
| `Trapez.UnitCounterexample` | trapez.py:49-52 | the samples 1, 1, 1 at 0, 1, 2 give 1.5 as written, and 2 with step-wide trapezoids |
| `Trapez.StepPairConstant` | trapez.py:49-52 | m step-wide trapezoids of height magnitude h add up to m * h * step |
| `Trapez.StepTrapezConstant` | trapez.py:55-60 | with step-wide trapezoids every pass gives exactly 1000 abs(k) for an integrand of constant magnitude abs(k) |
| `Trapez.StepSweepConstant` | trapez.py:49-52 | the 1000 * 2^i + 1 cells of pass i, all of height magnitude abs(k), give 1000 abs(k) with step-wide trapezoids |
| `Trapez.GridPairShortfall` | trapez.py:49-52 | on points step apart from start >= 0 with step > 0, the first m trapezoids as written fall short of the step-wide ones by exactly the first trapezoid as written |
| `Trapez.GridShortfall` | trapez.py:49-52 | over n >= 2 points step apart from start >= 0 with step > 0, the step-wide sum is the sum as written plus its first trapezoid |
| `Trapez.FirstTrap` | trapez.py:50-51 | with step > 0, a trapezoid whose left cell starts at x1 >= 0 and is half a step wide is a quarter step times the two heights' magnitudes: half the step-wide one |
| `Trapez.InnerTrap` | trapez.py:50-51 | with step > 0, a trapezoid whose left cell starts at x1 >= 0 and is a whole step wide equals the step-wide one |
| `Trapez.TrapezShortfall` | trapez.py:55-60 | in every pass the first cell is [0, step/2] over f(0), the second holds f(step), and the step-wide sum exceeds the estimate by exactly the first trapezoid |

## Left out

- Timing: the clock reads of `time_measure` (`time.process_time`) and the
  list `result_time_*` are not modelled. `time_measure` returns only its
  result.
- Plotting and printing: the matplotlib figure and the `tabulate` table that
  follow the main loop are output only.
- scipy.py is not part of this model. It hands the same integrand to
  `scipy.integrate.quad`, a library integrator whose code is not available.
- Floating point in the integrand's values and in the sums: all numbers
  are exact reals. For the coordinates this loses nothing in this program.
  - The steps are 2^-i for i = 0, ..., 12, and sampling starts at 0.
  - Every point k * 2^-i up to 1000 + 2^-i needs at most 23 significant
    bits, and every cell edge (2k ± 1) * 2^-(i+1) at most 24. All of them
    are exact in binary64.
  - So the program samples exactly the 1000 * 2^i + 1 points of
    `Halving.SweepGridCount` and builds exactly the cells of
    `Cells.CellsOf`.
  - Rounding enters only in the integrand's values (`np.sin`, the powers
    of x) and in the accumulated sums. Those are not modelled.
- `np.sin` is the function parameter `sin` and is not interpreted. The
  module-level `params` is a parameter of every operation.
- The final value of the global `STEP` after the loop is not recorded.
- `Square.TimeMeasure` and `Square.Sweep` always sample [0, 1000] and never
  fail, so they model `get_points_list(func=integrand, step=step, **params)`
  (square.py:69) only for dictionaries with `Integrand.NoKeywordClash`.
  - A key "start" or "stop" would move the range, and a start above 1000
    would make `get_squares` raise `IndexError` on the empty lists.
  - A key "func" or "step" would raise `TypeError` in that call, and a key
    "x" would raise it in `integrand(start, **kwargs)` (square.py:31).
  - The program's dictionary has the keys a, b, c and z, which bind none of
    them (`Integrand.ParamsNoKeywordClash`).
- `Trapez.TimeMeasure` and `Trapez.Sweep` rest on the same assumption, for
  the same call at trapez.py:58.
- `Sampler.GetPointsList` requires a positive step or start > stop.
  - With start > stop it returns two empty lists for any step, as the
    source does.
  - With a step of 0 or less and start <= stop, the Python loop never ends.
    That case is excluded, and the program only passes positive steps.
- `Cells.SweepCells` and the estimates are stated for a positive step.
- No claims about convergence as the step shrinks. These depend on real
  analysis and on floating point.

## Findings

| source | as written | input that shows it | evidently intended | confidence | as-written member | corrected member |
|---|---|---|---|---|---|---|
| trapez.py:49-52 | each trapezoid takes the width of its left cell, and the first cell was cut to half a step, so the first trapezoid is half as wide as the others and the sum falls short of the trapezoid rule by that first trapezoid | xs = [0, 1, 2], ys = [1, 1, 1], step = 1 gives 1.5 for the integral 2; for a constant integrand abs(k) every pass gives abs(k) (1000 - step / 2) instead of 1000 abs(k) | trapezoids one step wide (the `step` argument, which is passed and never read), giving 2 and 1000 abs(k) | not executed | `Trapez.UnitCounterexample` | `Trapez.StepTrapezConstant` |

The main loop keeps `sum_area_trapez` as written, so `Trapez.Sweep` records
the estimates the program computes. `Trapez.SumAreaTrapezByStep` computes
the corrected sum `Trapez.StepTrapSum`. `Trapez.GridShortfall` and
`Trapez.TrapezShortfall` relate the two rules for every input: the
corrected sum is the sum as written plus its first trapezoid.

=== FILE: arith.dfy ===
/** Small facts of real arithmetic the other modules rely on, each kept in
    a lemma of its own so that the solver meets the products it needs in a
    small context. */
module Arith {

  /** q lies in [lo, hi); scaled by a positive step, d = q * step lies in
      [lo * step, hi * step). */
  lemma Bracket(q: real, lo: real, hi: real, step: real, d: real)
    requires lo <= q < hi && step > 0.0 && q * step == d
    ensures lo * step <= d < hi * step
  {
  }

  lemma Zero(h: real, z: real)
    requires z == 0.0
    ensures h * z == 0.0
  {
  }

  /** Two terms, each h times a part, add up to h times the whole. */
  lemma Distribute(r: real, a: real, w: real, v: real, t: real, h: real)
    requires r == h * w && a == v * h && t == w + v
    ensures r + a == h * t
  {
  }

  /** Products of whole multiples of a step. */
  lemma Scale(m: real, p: real, h: real)
    requires p * h == 1.0 && m == 1000.0 * p && h > 0.0
    ensures m * h == 1000.0 && (m + 1.0) * h > 1000.0
  {
    assert m * h == 1000.0 * (p * h);
  }

  lemma Reassociate(m: real, a: real, h: real)
    requires m * h == 1000.0
    ensures m * (a * h) == 1000.0 * a
  {
    assert m * (a * h) == a * (m * h);
  }
}

=== FILE: cells.dfy ===
/** `get_squares` of square.py and `get_trapez` of trapez.py, which are the
    same function: each sample point becomes a cell [x - step/2, x + step/2]
    carrying its value, and the outermost half-cells beyond the first and
    the last point are cut off. */
module Cells {
  import opened Integrand
  import opened Sampler

  /** `[x1, x2, y1]`: a cell's left and right edge and its height. */
  datatype Cell = Cell(x1: real, x2: real, y: real)

  /** Python's `abs` on a number, as the area formulas apply it to a
      cell's edges and height. */
  function Abs(r: real): real
  {
    if r < 0.0 then -r else r
  }

  /** The one way the construction fails: `coo[0]` on an empty list. */
  datatype Error = IndexError

  datatype Result<T> = Success(value: T) | Failure(error: Error)

  function Min(a: nat, b: nat): nat
  {
    if a < b then a else b
  }

  /** The cell one pair of `zip(xs, ys)` appends, before the edges are cut. */
  function RawCell(x: real, y: real, step: real): Cell
  {
    Cell(x - step / 2.0, x + step / 2.0, y)
  }

  /** The cells the construction returns: one per pair of `zip(xs, ys)`,
      the first one starting at its own point and the last one ending at
      its own point; no pairs at all is an `IndexError`. */
  function CellsOf(xs: seq<real>, ys: seq<real>, step: real): Result<seq<Cell>>
  {
    var n := Min(|xs|, |ys|);
    if n == 0 then Failure(IndexError)
    else Success(seq(n, i requires 0 <= i < n =>
      Cell(if i == 0 then xs[0] else xs[i] - step / 2.0,
           if i == n - 1 then xs[i] else xs[i] + step / 2.0,
           ys[i])))
  }

  /** `get_squares(xs, ys, step)` / `get_trapez(xs, ys, step)`. */
  method GetCells(xs: seq<real>, ys: seq<real>, step: real) returns (r: Result<seq<Cell>>)
    ensures r == CellsOf(xs, ys, step)
  {
    var n := Min(|xs|, |ys|);
    var coo: seq<Cell> := [];
    for i := 0 to n
      invariant |coo| == i
      invariant forall j :: 0 <= j < i ==> coo[j] == RawCell(xs[j], ys[j], step)
    {
      coo := coo + [RawCell(xs[i], ys[i], step)];
    }
    if coo == [] {
      return Failure(IndexError);
    }
    coo := coo[0 := coo[0].(x1 := coo[0].x1 + step / 2.0)];
    var last := |coo| - 1;
    coo := coo[last := coo[last].(x2 := coo[last].x2 - step / 2.0)];
    r := Success(coo);
    assert r.value == CellsOf(xs, ys, step).value;
  }

  /** Construction fails exactly when there is nothing to pair; otherwise
      there is one cell per pair, holding the pair's value. */
  lemma CellsShape(xs: seq<real>, ys: seq<real>, step: real)
    ensures CellsOf(xs, ys, step).Failure? <==> (xs == [] || ys == [])
    ensures CellsOf(xs, ys, step).Success? ==>
      var cells := CellsOf(xs, ys, step).value;
      |cells| == Min(|xs|, |ys|) &&
      forall i :: 0 <= i < |cells| ==> cells[i].y == ys[i]
  {
  }

  /** Each cell's edges: the first cell begins at its point, the last ends
      at its point, and every other edge is half a step from its point. */
  lemma CellEdges(xs: seq<real>, ys: seq<real>, step: real, i: nat)
    requires i < Min(|xs|, |ys|)
    ensures CellsOf(xs, ys, step).Success?
    ensures i == 0 ==> CellsOf(xs, ys, step).value[i].x1 == xs[i]
    ensures i > 0 ==> CellsOf(xs, ys, step).value[i].x1 == xs[i] - step / 2.0
    ensures i == Min(|xs|, |ys|) - 1 ==> CellsOf(xs, ys, step).value[i].x2 == xs[i]
    ensures i < Min(|xs|, |ys|) - 1 ==> CellsOf(xs, ys, step).value[i].x2 == xs[i] + step / 2.0
  {
  }

  /** Consecutive cells share an edge. */
  ghost predicate Tiled(cells: seq<Cell>)
  {
    forall i :: 0 <= i < |cells| - 1 ==> cells[i].x2 == cells[i + 1].x1
  }

  /** On points step apart, the cells tile the sampled range: each cell
      ends where the next begins, the first begins at the first point and
      the last ends at the last point. */
  lemma {:induction false} GridCellsTiled(start: real, step: real, n: nat, ys: seq<real>)
    requires |ys| == n > 0
    ensures CellsOf(Grid(start, step, n), ys, step).Success?
    ensures Tiled(CellsOf(Grid(start, step, n), ys, step).value)
    ensures CellsOf(Grid(start, step, n), ys, step).value[0].x1 == start
    ensures CellsOf(Grid(start, step, n), ys, step).value[n - 1].x2 == Point(start, step, n - 1)
  {
    var xs := Grid(start, step, n);
    var cells := CellsOf(xs, ys, step).value;
    forall i | 0 <= i < |cells| - 1
      ensures cells[i].x2 == cells[i + 1].x1
    {
      assert xs[i + 1] == xs[i] + step;
    }
  }

  /** x2 - x1 of a cell. */
  function Width(c: Cell): real
  {
    c.x2 - c.x1
  }

  /** The widths of the cells, added up. */
  function SumWidths(cells: seq<Cell>): real
  {
    if cells == [] then 0.0 else SumWidths(cells[..|cells| - 1]) + Width(cells[|cells| - 1])
  }

  /** The widths of tiled cells telescope to the distance between the
      outermost edges. */
  lemma {:induction false} Telescope(cells: seq<Cell>)
    requires cells != [] && Tiled(cells)
    ensures SumWidths(cells) == cells[|cells| - 1].x2 - cells[0].x1
  {
    var m := |cells| - 1;
    if m > 0 {
      var front := cells[..m];
      assert Tiled(front);
      Telescope(front);
      assert front[m - 1] == cells[m - 1] && front[0] == cells[0];
    } else {
      assert cells[..0] == [];
    }
  }

  /** The cells over n points step apart are (n - 1) * step wide in all:
      the sampled range, with no overhang at either end. */
  lemma GridCellsWidth(start: real, step: real, n: nat, ys: seq<real>)
    requires |ys| == n > 0
    ensures CellsOf(Grid(start, step, n), ys, step).Success?
    ensures SumWidths(CellsOf(Grid(start, step, n), ys, step).value) == (n - 1) as real * step
  {
    var cells := CellsOf(Grid(start, step, n), ys, step).value;
    GridCellsTiled(start, step, n, ys);
    Telescope(cells);
    PointClosed(start, step, n - 1);
  }

  /** On points from a non-negative start, every cell lies on the
      non-negative axis with its left edge at or before its right edge. */
  lemma GridCellsOnAxis(start: real, step: real, n: nat, ys: seq<real>)
    requires start >= 0.0 && step > 0.0 && |ys| == n > 0
    ensures CellsOf(Grid(start, step, n), ys, step).Success?
    ensures forall i :: 0 <= i < n ==>
      0.0 <= CellsOf(Grid(start, step, n), ys, step).value[i].x1 <= CellsOf(Grid(start, step, n), ys, step).value[i].x2
  {
    var cells := CellsOf(Grid(start, step, n), ys, step).value;
    forall i | 0 <= i < n
      ensures 0.0 <= cells[i].x1 <= cells[i].x2
    {
      if i > 1 {
        PointMonotone(start, step, 0, i - 1);
      }
    }
  }

  /** The cells `time_measure` builds for one step: the integrand sampled
      on 0, step, 2 step, ... up to 1000. */
  ghost function SweepCells(params: map<string, real>, sin: real -> real, step: real): (cells: seq<Cell>)
    requires step > 0.0
    ensures |cells| == GridCount(0.0, 1000.0, step) > 0
  {
    CountAbove(0.0, 1000.0, step, 0);
    var xs := Grid(0.0, step, GridCount(0.0, 1000.0, step));
    CellsOf(xs, Samples(params, sin, xs), step).value
  }

  /** In every pass the cells lie on the non-negative axis, each left edge
      at or before its right edge. */
  lemma SweepOnAxis(params: map<string, real>, sin: real -> real, step: real)
    requires step > 0.0
    ensures forall j :: 0 <= j < |SweepCells(params, sin, step)| ==>
      0.0 <= SweepCells(params, sin, step)[j].x1 <= SweepCells(params, sin, step)[j].x2
  {
    var n := GridCount(0.0, 1000.0, step);
    GridCellsOnAxis(0.0, step, n, Samples(params, sin, Grid(0.0, step, n)));
  }

  /** An integrand of constant magnitude |k| has samples of magnitude |k|. */
  lemma ConstantSamples(params: map<string, real>, sin: real -> real, xs: seq<real>, k: real)
    requires forall x :: Abs(IntegrandValue(params, sin, x)) == Abs(k)
    ensures forall j :: 0 <= j < |xs| ==> Abs(Samples(params, sin, xs)[j]) == Abs(k)
  {
  }

  /** An integrand of constant magnitude |k| gives every cell a height of
      magnitude |k|. */
  lemma SweepHeights(params: map<string, real>, sin: real -> real, step: real, k: real)
    requires step > 0.0
    requires forall x :: Abs(IntegrandValue(params, sin, x)) == Abs(k)
    ensures forall j :: 0 <= j < |SweepCells(params, sin, step)| ==> Abs(SweepCells(params, sin, step)[j].y) == Abs(k)
  {
    var xs := Grid(0.0, step, GridCount(0.0, 1000.0, step));
    ConstantSamples(params, sin, xs, k);
    CellsShape(xs, Samples(params, sin, xs), step);
  }
}

=== FILE: halving.dfy ===
/** The step sizes of the main loop of square.py and trapez.py: starting at
    1 and halved after each of the 13 passes. */
module Halving {
  import opened Sampler
  import opened Cells
  import opened Arith

  /** The step of pass i (counting from 0): `STEP *= 0.5` applied i times
      to 1. */
  function Half(i: nat): (h: real)
    ensures h > 0.0
  {
    if i == 0 then 1.0 else Half(i - 1) * 0.5
  }

  function Pow2(i: nat): (p: nat)
    ensures p >= 1
  {
    if i == 0 then 1 else 2 * Pow2(i - 1)
  }

  /** The step of pass i is 1 / 2^i. */
  lemma {:induction false} HalfIsReciprocal(i: nat)
    ensures Half(i) * Pow2(i) as real == 1.0
  {
    if i > 0 {
      HalfIsReciprocal(i - 1);
      assert Half(i) * Pow2(i) as real == (Half(i - 1) * 0.5) * (2.0 * Pow2(i - 1) as real);
    }
  }

  /** With the step of pass i, the points 0, h, 2h, ... up to 1000 are
      1000 * 2^i + 1 in number, and the last one is exactly 1000. */
  lemma SweepGridCount(i: nat)
    ensures GridCount(0.0, 1000.0, Half(i)) == 1000 * Pow2(i) + 1
    ensures Point(0.0, Half(i), 1000 * Pow2(i)) == 1000.0
    ensures Point(0.0, Half(i), GridCount(0.0, 1000.0, Half(i)) - 1) == 1000.0
  {
    var h := Half(i);
    var m := 1000 * Pow2(i);
    assert m as real * h == 1000.0 && (m as real + 1.0) * h > 1000.0 by {
      HalfIsReciprocal(i);
      Scale(m as real, Pow2(i) as real, h);
    }
    PointClosed(0.0, h, m);
    assert Point(0.0, h, m + 1) == Point(0.0, h, m) + h;
    CountExact(0.0, 1000.0, h, m + 1);
  }

  /** In every pass the cells span [0, 1000] exactly: they begin at 0, end
      at 1000 and their widths add up to 1000. */
  lemma SweepSpan(params: map<string, real>, sin: real -> real, i: nat)
    ensures SweepCells(params, sin, Half(i))[0].x1 == 0.0
    ensures SweepCells(params, sin, Half(i))[|SweepCells(params, sin, Half(i))| - 1].x2 == 1000.0
    ensures SumWidths(SweepCells(params, sin, Half(i))) == 1000.0
  {
    var h := Half(i);
    var n := GridCount(0.0, 1000.0, h);
    var xs := Grid(0.0, h, n);
    var ys := Samples(params, sin, xs);
    assert Point(0.0, h, n - 1) == 1000.0 by { SweepGridCount(i); }
    GridCellsTiled(0.0, h, n, ys);
    Telescope(CellsOf(xs, ys, h).value);
  }
}

=== FILE: integrand.dfy ===
/** The integrand shared by square.py and trapez.py.
    A coefficient dictionary is walked in descending key order; the entry of
    rank i contributes `value * x**i`, and every entry also adds `sin(x)`.
    The module-level dictionary of the program becomes an explicit `map`
    argument, and `np.sin` becomes the function parameter `sin`. */
module Integrand {

  /** Python's `<` on `str`: lexicographic by code point, a proper prefix
      being smaller. */
  predicate StrLt(a: string, b: string)
    decreases |a|
  {
    if |b| == 0 then false
    else if |a| == 0 then true
    else if a[0] != b[0] then a[0] < b[0]
    else StrLt(a[1..], b[1..])
  }

  lemma {:induction false} StrLtIrreflexive(a: string)
    ensures !StrLt(a, a)
    decreases |a|
  {
    if |a| > 0 {
      StrLtIrreflexive(a[1..]);
    }
  }

  lemma {:induction false} StrLtTransitive(a: string, b: string, c: string)
    requires StrLt(a, b) && StrLt(b, c)
    ensures StrLt(a, c)
    decreases |a|
  {
    if |a| > 0 && a[0] == b[0] && b[0] == c[0] {
      StrLtTransitive(a[1..], b[1..], c[1..]);
    }
  }

  lemma {:induction false} StrLtTotal(a: string, b: string)
    requires a != b
    ensures StrLt(a, b) || StrLt(b, a)
    decreases |a|
  {
    if |a| > 0 && |b| > 0 && a[0] == b[0] {
      assert a == [a[0]] + a[1..] && b == [b[0]] + b[1..];
      StrLtTotal(a[1..], b[1..]);
    }
  }

  /** `k` is the largest key of `keys` in Python's string order. */
  predicate IsMax(k: string, keys: set<string>)
  {
    k in keys && forall j :: j in keys && j != k ==> StrLt(j, k)
  }

  lemma {:induction false} MaxExists(keys: set<string>)
    requires keys != {}
    ensures exists k :: IsMax(k, keys)
    decreases |keys|
  {
    var x :| x in keys;
    if keys != {x} {
      var rest := keys - {x};
      MaxExists(rest);
      var m :| IsMax(m, rest);
      if StrLt(x, m) {
        assert IsMax(m, keys);
      } else {
        StrLtTotal(x, m);
        forall j | j in keys && j != x
          ensures StrLt(j, x)
        {
          if j != m {
            StrLtTransitive(j, m, x);
          }
        }
        assert IsMax(x, keys);
      }
    } else {
      assert IsMax(x, keys);
    }
  }

  /** Keys strictly decreasing from left to right. */
  ghost predicate Descending(ks: seq<string>)
  {
    forall i, j :: 0 <= i < j < |ks| ==> StrLt(ks[j], ks[i])
  }

  /** The keys of a dictionary in the order `sorted(d.items())[::-1]`
      visits them. */
  ghost function Listing(keys: set<string>): (ks: seq<string>)
    ensures |ks| == |keys|
    decreases |keys|
  {
    if keys == {} then []
    else
      MaxExists(keys);
      var k :| IsMax(k, keys);
      [k] + Listing(keys - {k})
  }

  /** The listing is descending and holds exactly the given keys. */
  lemma {:induction false} ListingSpec(keys: set<string>)
    ensures Descending(Listing(keys))
    ensures forall k :: k in Listing(keys) <==> k in keys
    decreases |keys|
  {
    var ks := Listing(keys);
    if keys != {} {
      var k := ks[0];
      assert IsMax(k, keys) && ks[1..] == Listing(keys - {k});
      ListingSpec(keys - {k});
      ConsMax(k, ks[1..], keys);
      assert ks == [k] + ks[1..];
    }
  }

  /** Putting the largest key in front of a listing of the others lists all
      of them. */
  lemma ConsMax(k: string, rest: seq<string>, keys: set<string>)
    requires IsMax(k, keys) && Descending(rest) && |rest| == |keys - {k}|
    requires forall j :: j in rest <==> j in keys - {k}
    ensures Descending([k] + rest) && |[k] + rest| == |keys|
    ensures forall j :: j in [k] + rest <==> j in keys
  {
    var ks := [k] + rest;
    forall i, j | 0 <= i < j < |ks|
      ensures StrLt(ks[j], ks[i])
    {
      assert ks[j] == rest[j - 1];
      if i > 0 {
        assert ks[i] == rest[i - 1];
      } else {
        assert rest[j - 1] in rest;
      }
    }
  }

  /** A descending listing of a set is unique: the order in which the
      integrand walks the dictionary depends only on its keys. */
  lemma {:induction false} ListingUnique(a: seq<string>, b: seq<string>)
    requires Descending(a) && Descending(b) && |a| == |b|
    requires forall k :: k in a <==> k in b
    ensures a == b
    decreases |a|
  {
    if |a| > 0 {
      assert a[0] == b[0] by {
        if a[0] != b[0] {
          assert a[0] in b && b[0] in a;
          var i :| 0 <= i < |a| && a[i] == b[0];
          var j :| 0 <= j < |b| && b[j] == a[0];
          assert StrLt(a[0], b[0]);
          assert StrLt(b[0], a[0]);
          StrLtTransitive(a[0], b[0], a[0]);
          StrLtIrreflexive(a[0]);
        }
      }
      forall k
        ensures k in a[1..] <==> k in b[1..]
      {
        DescendingTail(a, k);
        DescendingTail(b, k);
      }
      ListingUnique(a[1..], b[1..]);
    }
  }

  /** An element of a descending sequence other than its head is in the tail. */
  lemma DescendingTail(a: seq<string>, k: string)
    requires Descending(a) && |a| > 0
    ensures k in a[1..] <==> (k in a && k != a[0])
  {
    if k in a[1..] {
      var i :| 1 <= i < |a| && a[i] == k;
      StrLtIrreflexive(a[0]);
      assert StrLt(a[i], a[0]);
    }
    if k in a && k != a[0] {
      var i :| 0 <= i < |a| && a[i] == k;
      assert a[1..][i - 1] == k;
    }
  }

  /** The number of distinct keys of a descending sequence is its length. */
  lemma {:induction false} DescendingCard(s: seq<string>)
    requires Descending(s)
    ensures |set x | x in s| == |s|
    decreases |s|
  {
    if |s| > 0 {
      DescendingCard(s[1..]);
      DescendingTail(s, s[0]);
      var all := set x | x in s;
      var tail := set x | x in s[1..];
      assert all == {s[0]} + tail;
      assert s[0] !in tail;
    }
  }

  /** In a descending sequence, the elements above the i-th are exactly the
      ones before it. */
  lemma AboveIsPrefix(ks: seq<string>, i: nat, j: string)
    requires Descending(ks) && i < |ks|
    ensures (j in ks && StrLt(ks[i], j)) <==> j in ks[..i]
  {
    if j in ks && StrLt(ks[i], j) {
      var m :| 0 <= m < |ks| && ks[m] == j;
      if i <= m {
        if i < m {
          StrLtTransitive(ks[i], j, ks[i]);
        }
        StrLtIrreflexive(ks[i]);
      }
      assert ks[..i][m] == j;
    }
    if j in ks[..i] {
      var m :| 0 <= m < i && ks[..i][m] == j;
      assert ks[m] == j;
    }
  }

  /** The exponent of a key is its rank: the number of keys that sort after
      it. */
  lemma RankIsExponent(keys: set<string>, i: nat)
    requires i < |keys|
    ensures |set j | j in keys && StrLt(Listing(keys)[i], j)| == i
  {
    var ks := Listing(keys);
    ListingSpec(keys);
    var prefix := ks[..i];
    var above := set j | j in keys && StrLt(ks[i], j);
    forall j
      ensures j in above <==> j in prefix
    {
      AboveIsPrefix(ks, i, j);
    }
    assert above == set x | x in prefix;
    assert Descending(prefix);
    DescendingCard(prefix);
    assert above == set j | j in keys && StrLt(Listing(keys)[i], j);
  }

  /** `x ** n` for a natural exponent; `x ** 0` is 1, also for x = 0. */
  function Pow(x: real, n: nat): real
  {
    if n == 0 then 1.0 else x * Pow(x, n - 1)
  }

  /** `cs[0] + cs[1] * x + ... + cs[n-1] * x ** (n-1)`. */
  function Poly(cs: seq<real>, x: real): real
  {
    if cs == [] then 0.0
    else Poly(cs[..|cs| - 1], x) + cs[|cs| - 1] * Pow(x, |cs| - 1)
  }

  /** `sorted(d.items())[::-1]`: the entries in descending key order. */
  ghost function SortedItems(d: map<string, real>): (items: seq<(string, real)>)
  {
    var ks := Listing(d.Keys);
    ListingSpec(d.Keys);
    seq(|ks|, i requires 0 <= i < |ks| => (ks[i], d[ks[i]]))
  }

  /** The values of a list of entries, in order. */
  function Values(items: seq<(string, real)>): seq<real>
  {
    seq(|items|, i requires 0 <= i < |items| => items[i].1)
  }

  /** The coefficient of `x ** i` is the value of the entry of rank `i`. */
  ghost function Coefficients(d: map<string, real>): seq<real>
  {
    Values(SortedItems(d))
  }

  /** The value the integrand computes: the polynomial part plus one
      `sin(x)` per dictionary entry. */
  ghost function IntegrandValue(params: map<string, real>, sin: real -> real, x: real): real
  {
    Poly(Coefficients(params), x) + |params| as real * sin(x)
  }

  /** The dictionary a Python dict literal denotes: each pair assigns its
      key in turn. */
  function DictOf(pairs: seq<(string, real)>): map<string, real>
  {
    if pairs == [] then map[]
    else DictOf(pairs[..|pairs| - 1])[pairs[|pairs| - 1].0 := pairs[|pairs| - 1].1]
  }

  /** The keys of a dict literal are the keys written in it. */
  lemma {:induction false} DictOfKeys(pairs: seq<(string, real)>, k: string)
    ensures k in DictOf(pairs) <==> exists i :: 0 <= i < |pairs| && pairs[i].0 == k
  {
    if pairs != [] {
      var init := pairs[..|pairs| - 1];
      DictOfKeys(init, k);
      if k in DictOf(init) {
        var i :| 0 <= i < |init| && init[i].0 == k;
        assert pairs[i] == init[i];
      }
      if exists i :: 0 <= i < |pairs| && pairs[i].0 == k {
        var i :| 0 <= i < |pairs| && pairs[i].0 == k;
        if i < |init| {
          assert init[i] == pairs[i];
        }
      }
    }
  }

  /** A repeated key keeps the value written last. */
  lemma {:induction false} DictOfLastWins(pairs: seq<(string, real)>, i: nat)
    requires i < |pairs|
    requires forall j :: i < j < |pairs| ==> pairs[j].0 != pairs[i].0
    ensures pairs[i].0 in DictOf(pairs) && DictOf(pairs)[pairs[i].0] == pairs[i].1
  {
    if i < |pairs| - 1 {
      var init := pairs[..|pairs| - 1];
      assert init[i] == pairs[i];
      forall j | i < j < |init|
        ensures init[j].0 != init[i].0
      {
        assert init[j] == pairs[j];
      }
      DictOfLastWins(init, i);
    }
  }

  /** The `params` literal of square.py and trapez.py, key "c" written twice. */
  const ParamsLiteral: seq<(string, real)> :=
    [("c", 1.0), ("a", 2.0), ("b", 5.0), ("c", 7.0), ("z", 4.0)]

  /** The entries sorted in descending order, as a real list. */
  method SortedItemsDesc(d: map<string, real>) returns (items: seq<(string, real)>)
    ensures items == SortedItems(d)
  {
    var rest := d.Keys;
    var ks: seq<string> := [];
    items := [];
    while rest != {}
      invariant rest <= d.Keys
      invariant |items| == |ks|
      invariant forall i :: 0 <= i < |ks| ==> ks[i] in d && items[i] == (ks[i], d[ks[i]])
      invariant forall k :: k in ks <==> k in d.Keys && k !in rest
      invariant Descending(ks)
      invariant forall i, k :: 0 <= i < |ks| && k in rest ==> StrLt(k, ks[i])
      decreases |rest|
    {
      MaxExists(rest);
      var k :| IsMax(k, rest);
      ks := ks + [k];
      items := items + [(k, d[k])];
      rest := rest - {k};
    }
    DescendingCard(ks);
    assert (set x | x in ks) == d.Keys;
    ListingSpec(d.Keys);
    ListingUnique(ks, Listing(d.Keys));
  }

  /** There is one sorted entry per key. */
  lemma {:induction false} SortedItemsCount(params: map<string, real>)
    ensures |SortedItems(params)| == |params|
  {
    var ks := Listing(params.Keys);
    assert |ks| == |params.Keys|;
  }

  /** One more term of a polynomial. */
  lemma {:induction false} PolyStep(cs: seq<real>, i: nat, x: real)
    requires i < |cs|
    ensures Poly(cs[..i + 1], x) == Poly(cs[..i], x) + cs[i] * Pow(x, i)
  {
    var p := cs[..i + 1];
    assert p != [] && |p| - 1 == i;
    assert p[..|p| - 1] == cs[..i] && p[|p| - 1] == cs[i];
  }

  /** The loop of `integrand`: the entry at position i adds `v * x**i` and
      `sin(x)`. */
  method SumTerms(items: seq<(string, real)>, sin: real -> real, x: real) returns (y: real)
    ensures y == Poly(Values(items), x) + |items| as real * sin(x)
  {
    ghost var cs := Values(items);
    y := 0.0;
    for i := 0 to |items|
      invariant y == Poly(cs[..i], x) + i as real * sin(x)
    {
      PolyStep(cs, i, x);
      y := y + items[i].1 * Pow(x, i) + sin(x);
    }
    assert cs[..|items|] == cs;
  }

  /** `integrand(x, **kwargs)`: the entries sorted in descending key order,
      then summed; `kwargs` is accepted and never read. */
  method Evaluate(params: map<string, real>, sin: real -> real, x: real, kwargs: map<string, real>)
    returns (y: real)
    ensures y == IntegrandValue(params, sin, x)
  {
    var items := SortedItemsDesc(params);
    SortedItemsCount(params);
    y := SumTerms(items, sin, x);
  }

  /** The program's dictionary literal collapses to {a: 2, b: 5, c: 7, z: 4}. */
  lemma ParamsDict()
    ensures DictOf(ParamsLiteral) == map["a" := 2.0, "b" := 5.0, "c" := 7.0, "z" := 4.0]
  {
    var p := ParamsLiteral;
    assert p[..1][..0] == [] && p[..2][..1] == p[..1];
    assert p[..3][..2] == p[..2] && p[..4][..3] == p[..3] && p[..4] == p[..|p| - 1];
    assert DictOf(p[..1]) == map["c" := 1.0];
    assert DictOf(p[..2]) == map["c" := 1.0, "a" := 2.0];
    assert DictOf(p[..3]) == map["c" := 1.0, "a" := 2.0, "b" := 5.0];
    assert DictOf(p[..4]) == map["c" := 7.0, "a" := 2.0, "b" := 5.0];
  }

  /** No key of the dictionary names a parameter of `get_points_list` or
      of `integrand`, so that `**params` in `time_measure` binds none of
      them: the range stays [0, 1000] and no call raises `TypeError`. */
  predicate NoKeywordClash(params: map<string, real>)
  {
    forall key :: key in params ==> key !in {"func", "start", "stop", "step", "x"}
  }

  /** The program's dictionary binds no keyword parameter. */
  lemma ParamsNoKeywordClash()
    ensures NoKeywordClash(DictOf(ParamsLiteral))
  {
    ParamsDict();
  }

  /** The program's keys in descending order are z, c, b, a. */
  lemma ParamsListing()
    ensures Listing({"a", "b", "c", "z"}) == ["z", "c", "b", "a"]
  {
    var ks := ["z", "c", "b", "a"];
    assert StrLt("c", "z") && StrLt("b", "c") && StrLt("a", "b");
    assert StrLt("b", "z") by { StrLtTransitive("b", "c", "z"); }
    assert StrLt("a", "c") by { StrLtTransitive("a", "b", "c"); }
    assert StrLt("a", "z") by { StrLtTransitive("a", "c", "z"); }
    assert Descending(ks);
    var keys := {"a", "b", "c", "z"};
    assert forall k :: k in ks <==> k in keys;
    assert |keys| == 4;
    ListingSpec(keys);
    ListingUnique(ks, Listing(keys));
  }

  /** Walked in descending key order, the program's dictionary gives the
      coefficients of 1, x, x^2, x^3 as 4, 7, 5, 2. */
  lemma ParamsCoefficients()
    ensures Coefficients(map["a" := 2.0, "b" := 5.0, "c" := 7.0, "z" := 4.0]) == [4.0, 7.0, 5.0, 2.0]
  {
    var d := map["a" := 2.0, "b" := 5.0, "c" := 7.0, "z" := 4.0];
    assert d.Keys == {"a", "b", "c", "z"};
    ParamsListing();
    CoefficientsOf(d, ["z", "c", "b", "a"]);
  }

  /** Given the listing of a dictionary's keys, its coefficients are the
      values looked up in that order. */
  lemma CoefficientsOf(d: map<string, real>, ks: seq<string>)
    requires Listing(d.Keys) == ks
    ensures |Coefficients(d)| == |ks|
    ensures forall i :: 0 <= i < |ks| ==> ks[i] in d && Coefficients(d)[i] == d[ks[i]]
  {
    ListingSpec(d.Keys);
  }

  /** The polynomial with coefficients 4, 7, 5, 2. */
  lemma CubicPoly(x: real)
    ensures Poly([4.0, 7.0, 5.0, 2.0], x) == 4.0 + 7.0 * x + 5.0 * x * x + 2.0 * x * x * x
  {
    var c1, c2, c3, c4 := [4.0], [4.0, 7.0], [4.0, 7.0, 5.0], [4.0, 7.0, 5.0, 2.0];
    assert c1[..0] == [] && c2[..1] == c1 && c3[..2] == c2 && c4[..3] == c3;
    assert Pow(x, 1) == x;
    assert Pow(x, 2) == x * x;
    assert Pow(x, 3) == x * x * x;
    assert Poly(c1, x) == 4.0;
    assert Poly(c2, x) == 4.0 + 7.0 * x;
    assert Poly(c3, x) == 4.0 + 7.0 * x + 5.0 * x * x;
  }

  /** With the program's dictionary the integrand is
      4 + 7x + 5x^2 + 2x^3 + 4 sin(x). */
  lemma ParamsIntegrand(sin: real -> real, x: real)
    ensures IntegrandValue(DictOf(ParamsLiteral), sin, x)
            == 4.0 + 7.0 * x + 5.0 * x * x + 2.0 * x * x * x + 4.0 * sin(x)
  {
    var d := map["a" := 2.0, "b" := 5.0, "c" := 7.0, "z" := 4.0];
    ParamsDict();
    ParamsCoefficients();
    CubicPoly(x);
    var keys := {"a", "b", "c", "z"};
    assert d.Keys == keys && |keys| == 4;
    assert |d| == |d.Keys|;
  }
}

=== FILE: sampler.dfy ===
/** `get_points_list` of square.py and trapez.py: sample the integrand on
    the grid start, start + step, ... while the point does not exceed stop.
    Coordinates are exact reals, so the floating-point drift of
    `start += step` is not part of this model. */
module Sampler {
  import opened Integrand
  import opened Arith

  /** The i-th grid point, reached as the loop reaches it: by adding step
      i times to start. */
  function Point(start: real, step: real, i: nat): real
  {
    if i == 0 then start else Point(start, step, i - 1) + step
  }

  /** The i-th grid point is start + i * step. */
  lemma {:induction false} PointClosed(start: real, step: real, i: nat)
    ensures Point(start, step, i) == start + i as real * step
  {
    if i > 0 {
      PointClosed(start, step, i - 1);
      assert (i - 1) as real * step + step == i as real * step;
    }
  }

  /** Grid points grow with their index. */
  lemma {:induction false} PointMonotone(start: real, step: real, i: nat, j: nat)
    requires step > 0.0 && i < j
    ensures Point(start, step, i) < Point(start, step, j)
  {
    if i < j - 1 {
      PointMonotone(start, step, i, j - 1);
    }
  }

  /** The number of grid points that do not exceed stop: the first point
      past stop has this index. */
  function GridCount(start: real, stop: real, step: real): (n: nat)
    requires step > 0.0
    ensures n > 0 ==> Point(start, step, n - 1) <= stop
    ensures stop < Point(start, step, n)
  {
    if start > stop then 0
    else
      var q := (stop - start) / step;
      assert q * step == stop - start;
      assert q >= 0.0 by {
        if q < 0.0 { Bracket(q, q - 1.0, 0.0, step, stop - start); }
      }
      var n := q.Floor + 1;
      Bracket(q, (n - 1) as real, n as real, step, stop - start);
      PointClosed(start, step, n - 1);
      PointClosed(start, step, n);
      n
  }

  /** Any n whose last point is at or below stop and whose next point is
      past it is the grid's count. */
  lemma {:induction false} CountExact(start: real, stop: real, step: real, n: nat)
    requires step > 0.0
    requires n > 0 ==> Point(start, step, n - 1) <= stop
    requires stop < Point(start, step, n)
    ensures n == GridCount(start, stop, step)
  {
    var g := GridCount(start, stop, step);
    if n < g {
      PointMonotone(start, step, n, g - 1);
    } else if g < n {
      PointMonotone(start, step, g, n - 1);
    }
  }

  /** Below stop there is room for one more sample. */
  lemma {:induction false} CountAbove(start: real, stop: real, step: real, m: nat)
    requires step > 0.0 && Point(start, step, m) <= stop
    ensures m < GridCount(start, stop, step)
  {
    var g := GridCount(start, stop, step);
    if g <= m {
      if g < m {
        PointMonotone(start, step, g, m);
      }
    }
  }

  /** The points start, start + step, ..., n of them. */
  function Grid(start: real, step: real, n: nat): seq<real>
  {
    seq(n, i requires 0 <= i < n => Point(start, step, i))
  }

  /** The integrand's value at each point. */
  ghost function Samples(params: map<string, real>, sin: real -> real, xs: seq<real>): seq<real>
  {
    seq(|xs|, i requires 0 <= i < |xs| => IntegrandValue(params, sin, xs[i]))
  }

  /** Sampling one more point appends its value. */
  lemma SamplesSnoc(params: map<string, real>, sin: real -> real, xs: seq<real>, x: real)
    ensures Samples(params, sin, xs) + [IntegrandValue(params, sin, x)] == Samples(params, sin, xs + [x])
  {
    var l, r := Samples(params, sin, xs) + [IntegrandValue(params, sin, x)], Samples(params, sin, xs + [x]);
    forall i | 0 <= i < |r|
      ensures l[i] == r[i]
    {
      if i < |xs| {
        assert (xs + [x])[i] == xs[i];
      }
    }
  }

  /** `get_points_list(func, start, stop, step, **kwargs)`. Neither `func`
      nor `kwargs` is used: the points are evaluated with the integrand and
      its dictionary. Past stop from the outset, any step gives two empty
      lists; otherwise a non-positive step would never end the loop, which
      is why the program's callers only pass positive ones. */
  method GetPointsList(params: map<string, real>, sin: real -> real, ghost func: real -> real,
                       start: real, stop: real, step: real, kwargs: map<string, real>)
    returns (xs: seq<real>, ys: seq<real>)
    requires step > 0.0 || start > stop
    ensures start > stop ==> xs == [] && ys == []
    ensures step > 0.0 ==> xs == Grid(start, step, GridCount(start, stop, step))
    ensures ys == Samples(params, sin, xs)
  {
    xs, ys := [], [];
    var x := start;
    while x <= stop
      invariant step > 0.0 || (xs == [] && x == start)
      invariant xs == Grid(start, step, |xs|)
      invariant x == Point(start, step, |xs|)
      invariant |xs| > 0 ==> Point(start, step, |xs| - 1) <= stop
      invariant ys == Samples(params, sin, xs)
      invariant step > 0.0 ==> |xs| <= GridCount(start, stop, step)
      decreases if step > 0.0 then GridCount(start, stop, step) - |xs| else 0
    {
      CountAbove(start, stop, step, |xs|);
      xs, ys := AppendSample(params, sin, x, kwargs, xs, ys);
      x := x + step;
    }
    if step > 0.0 {
      CountExact(start, stop, step, |xs|);
    }
  }

  /** One pass of the loop of `get_points_list`: append the point and the
      integrand's value there. */
  method AppendSample(params: map<string, real>, sin: real -> real, x: real, kwargs: map<string, real>, xs: seq<real>, ys: seq<real>)
    returns (xs': seq<real>, ys': seq<real>)
    requires ys == Samples(params, sin, xs)
    ensures xs' == xs + [x] && ys' == Samples(params, sin, xs')
  {
    var y := Evaluate(params, sin, x, kwargs);
    SamplesSnoc(params, sin, xs, x);
    xs' := xs + [x];
    ys' := ys + [y];
  }

  /** The grid's points are strictly increasing, start + i * step apart
      from start. */
  lemma GridPoints(start: real, step: real, n: nat, i: nat)
    requires step > 0.0 && i < n
    ensures Grid(start, step, n)[i] == start + i as real * step
    ensures forall j :: i < j < n ==> Grid(start, step, n)[i] < Grid(start, step, n)[j]
  {
    PointClosed(start, step, i);
    forall j | i < j < n
      ensures Grid(start, step, n)[i] < Grid(start, step, n)[j]
    {
      PointMonotone(start, step, i, j);
    }
  }

  /** The sampled grid stays within [start, stop], starts at start, and the
      point after its last one would pass stop. */
  lemma GridInRange(start: real, stop: real, step: real, i: nat)
    requires step > 0.0 && i < GridCount(start, stop, step)
    ensures start <= stop
    ensures Grid(start, step, GridCount(start, stop, step))[0] == start
    ensures start <= Grid(start, step, GridCount(start, stop, step))[i] <= stop
  {
    var n := GridCount(start, stop, step);
    if 0 < i {
      PointMonotone(start, step, 0, i);
    }
    if i < n - 1 {
      PointMonotone(start, step, i, n - 1);
    }
  }
}

=== FILE: square.dfy ===
/** square.py: the integral of the integrand over [0, 1000] estimated by
    rectangles, one per sample point, for 13 halving step sizes. */
module Square {
  import opened Integrand
  import opened Sampler
  import opened Cells
  import opened Halving
  import opened Arith

  /** `(abs(x2) - abs(x1)) * abs(y1)`: the area `sum_area` gives a cell. */
  function Area(c: Cell): real
  {
    (Abs(c.x2) - Abs(c.x1)) * Abs(c.y)
  }

  /** The areas of the cells, added up. */
  function RectSum(cells: seq<Cell>): real
  {
    if cells == [] then 0.0 else RectSum(cells[..|cells| - 1]) + Area(cells[|cells| - 1])
  }

  /** `sum_area(cords, step)`; `step` is accepted and never read. */
  method SumArea(cords: seq<Cell>, step: real) returns (s: real)
    ensures s == RectSum(cords)
  {
    s := 0.0;
    for i := 0 to |cords|
      invariant s == RectSum(cords[..i])
    {
      assert cords[..i + 1][..i] == cords[..i];
      s := s + Area(cords[i]);
    }
    assert cords[..|cords|] == cords;
  }

  /** On the non-negative axis a cell's area is its width times the
      magnitude of its height. */
  lemma AreaOnAxis(c: Cell)
    requires 0.0 <= c.x1 && 0.0 <= c.x2
    ensures Area(c) == Width(c) * Abs(c.y)
    ensures c.x1 <= c.x2 ==> Area(c) >= 0.0
  {
  }

  /** Cells on the non-negative axis, each no wider than it is long, have a
      non-negative total area. */
  lemma {:induction false} RectSumNonNegative(cells: seq<Cell>)
    requires forall i :: 0 <= i < |cells| ==> 0.0 <= cells[i].x1 <= cells[i].x2
    ensures RectSum(cells) >= 0.0
  {
    if cells != [] {
      RectSumNonNegative(cells[..|cells| - 1]);
      assert Area(cells[|cells| - 1]) >= 0.0 by {
        AreaOnAxis(cells[|cells| - 1]);
      }
    }
  }

  /** Rectangles of one height h on the non-negative axis add up to h
      times their total width. */
  lemma {:induction false} RectConstantHeight(cells: seq<Cell>, h: real)
    requires forall i :: 0 <= i < |cells| ==> 0.0 <= cells[i].x1 && 0.0 <= cells[i].x2
    requires forall i :: 0 <= i < |cells| ==> Abs(cells[i].y) == h
    ensures RectSum(cells) == h * SumWidths(cells)
  {
    if cells == [] {
      assert RectSum(cells) == 0.0 && SumWidths(cells) == 0.0;
      Zero(h, SumWidths(cells));
    } else {
      var front, c := cells[..|cells| - 1], cells[|cells| - 1];
      var r, a, w, v := RectSum(front), Area(c), SumWidths(front), Width(c);
      assert r == h * w by { RectConstantHeight(front, h); }
      assert a == v * h by { AreaOnAxis(c); }
      assert RectSum(cells) == r + a;
      assert SumWidths(cells) == w + v;
      Distribute(r, a, w, v, SumWidths(cells), h);
    }
  }

  /** The estimate `time_measure(get_squares, sum_area, step)` returns. */
  ghost function SquareEstimate(params: map<string, real>, sin: real -> real, step: real): real
    requires step > 0.0
  {
    RectSum(SweepCells(params, sin, step))
  }

  /** `time_measure(get_squares, sum_area, step)` without the clock: sample
      [0, 1000], build the cells and add up their areas. */
  method TimeMeasure(params: map<string, real>, sin: real -> real, step: real) returns (result: real)
    requires step > 0.0
    ensures result == SquareEstimate(params, sin, step)
  {
    var xs, ys := GetPointsList(params, sin, x => IntegrandValue(params, sin, x), 0.0, 1000.0, step, params);
    CountAbove(0.0, 1000.0, step, 0);
    var cords := GetCells(xs, ys, step);
    result := SumArea(cords.value, step);
  }

  /** The estimates of the first n passes. */
  ghost function Estimates(params: map<string, real>, sin: real -> real, n: nat): seq<real>
  {
    seq(n, j requires 0 <= j < n => SquareEstimate(params, sin, Half(j)))
  }

  lemma EstimatesSnoc(params: map<string, real>, sin: real -> real, n: nat)
    ensures Estimates(params, sin, n) + [SquareEstimate(params, sin, Half(n))] == Estimates(params, sin, n + 1)
  {
  }

  /** The main loop of square.py: 13 passes, the step starting at 1 and
      halved after each pass; the estimate of each pass is recorded with
      its step. */
  method Sweep(params: map<string, real>, sin: real -> real) returns (stepList: seq<real>, results: seq<real>)
    ensures |stepList| == 13 && |results| == 13
    ensures forall i :: 0 <= i < 13 ==> stepList[i] == Half(i)
    ensures results == Estimates(params, sin, 13)
  {
    var step := 1.0;
    stepList, results := [], [];
    for i := 1 to 14
      invariant |stepList| == i - 1 && |results| == i - 1
      invariant step == Half(i - 1)
      invariant forall j :: 0 <= j < i - 1 ==> stepList[j] == Half(j)
      invariant results == Estimates(params, sin, i - 1)
    {
      stepList := stepList + [step];
      var res := TimeMeasure(params, sin, step);
      EstimatesSnoc(params, sin, i - 1);
      results := results + [res];
      step := step * 0.5;
    }
  }

  /** Every pass's estimate is non-negative: the cells lie on [0, 1000]
      and the areas take the absolute value of the height. */
  lemma SquareEstimateNonNegative(params: map<string, real>, sin: real -> real, step: real)
    requires step > 0.0
    ensures SquareEstimate(params, sin, step) >= 0.0
  {
    var n := GridCount(0.0, 1000.0, step);
    var xs := Grid(0.0, step, n);
    GridCellsOnAxis(0.0, step, n, Samples(params, sin, xs));
    RectSumNonNegative(SweepCells(params, sin, step));
  }

  /** For an integrand of constant magnitude |k| every pass gives exactly
      1000 |k|, the integral over [0, 1000]. */
  lemma SquareConstant(params: map<string, real>, sin: real -> real, k: real, i: nat)
    requires forall x :: Abs(IntegrandValue(params, sin, x)) == Abs(k)
    ensures SquareEstimate(params, sin, Half(i)) == 1000.0 * Abs(k)
  {
    var h := Half(i);
    var n := GridCount(0.0, 1000.0, h);
    var xs := Grid(0.0, h, n);
    var cells := SweepCells(params, sin, h);
    GridCellsOnAxis(0.0, h, n, Samples(params, sin, xs));
    forall j | 0 <= j < |cells|
      ensures Abs(cells[j].y) == Abs(k)
    {
      assert cells[j].y == IntegrandValue(params, sin, xs[j]);
    }
    RectConstantHeight(cells, Abs(k));
    SweepSpan(params, sin, i);
  }
}

=== FILE: trapez.dfy ===
/** trapez.py: the integral of the integrand over [0, 1000] estimated by
    trapezoids between neighbouring sample points, for 13 halving step
    sizes. */
module Trapez {
  import opened Integrand
  import opened Sampler
  import opened Cells
  import opened Halving
  import opened Arith

  /** `((abs(y_i) + abs(y_i+1)) * (abs(x2_i) - abs(x1_i))) / 2`: the
      trapezoid between cell l and the next cell r takes its width from l. */
  function TrapArea(l: Cell, r: Cell): real
  {
    (Abs(l.y) + Abs(r.y)) * (Abs(l.x2) - Abs(l.x1)) / 2.0
  }

  /** The first m trapezoids, between cells 0 and 1, ..., m - 1 and m. */
  function PairSum(cells: seq<Cell>, m: nat): real
    requires m == 0 || m < |cells|
  {
    if m == 0 then 0.0 else PairSum(cells, m - 1) + TrapArea(cells[m - 1], cells[m])
  }

  /** All trapezoids between consecutive cells, added up; fewer than two
      cells give none. */
  function TrapSum(cells: seq<Cell>): real
  {
    if cells == [] then 0.0 else PairSum(cells, |cells| - 1)
  }

  /** The widths of the first m cells: `SumWidths(cells[..m])`, which
      `LeftWidthsPrefix` proves. It counts by index, as `PairSum` does, so
      that the inductions over trapezoids step both sums together without
      the solver having to relate slices of slices at every step. */
  function LeftWidths(cells: seq<Cell>, m: nat): real
    requires m <= |cells|
  {
    if m == 0 then 0.0 else LeftWidths(cells, m - 1) + Width(cells[m - 1])
  }

  lemma {:induction false} LeftWidthsPrefix(cells: seq<Cell>, m: nat)
    requires m <= |cells|
    ensures LeftWidths(cells, m) == SumWidths(cells[..m])
  {
    if m > 0 {
      LeftWidthsPrefix(cells, m - 1);
      assert cells[..m][..m - 1] == cells[..m - 1];
    }
  }

  /** `sum_area_trapez(cords, step)`: `range(len(cords) - 1)` is empty for
      zero or one cell; `step` is accepted and never read. */
  method SumAreaTrapez(cords: seq<Cell>, step: real) returns (s: real)
    ensures s == TrapSum(cords)
  {
    s := 0.0;
    var count := if |cords| > 0 then |cords| - 1 else 0;
    for i := 0 to count
      invariant s == PairSum(cords, i)
    {
      s := s + TrapArea(cords[i], cords[i + 1]);
    }
  }

  /** On the non-negative axis a trapezoid's area is the mean of the two
      heights' magnitudes times the left cell's width. */
  lemma TrapAreaOnAxis(l: Cell, r: Cell)
    requires 0.0 <= l.x1 && 0.0 <= l.x2
    ensures TrapArea(l, r) == (Abs(l.y) + Abs(r.y)) * Width(l) / 2.0
    ensures l.x1 <= l.x2 ==> TrapArea(l, r) >= 0.0
  {
  }

  /** Cells on the non-negative axis have non-negative trapezoid sums. */
  lemma {:induction false} PairSumNonNegative(cells: seq<Cell>, m: nat)
    requires m == 0 || m < |cells|
    requires forall i :: 0 <= i < |cells| ==> 0.0 <= cells[i].x1 <= cells[i].x2
    ensures PairSum(cells, m) >= 0.0
  {
    if m > 0 {
      PairSumNonNegative(cells, m - 1);
      TrapAreaOnAxis(cells[m - 1], cells[m]);
    }
  }

  /** Only the height of the last cell is read: its edges can be anything. */
  lemma LastEdgesUnread(cells: seq<Cell>, x1: real, x2: real)
    requires cells != []
    ensures TrapSum(cells[|cells| - 1 := Cell(x1, x2, cells[|cells| - 1].y)]) == TrapSum(cells)
  {
    var other := cells[|cells| - 1 := Cell(x1, x2, cells[|cells| - 1].y)];
    PairSumLastUnread(cells, other, |cells| - 1);
  }

  lemma {:induction false} PairSumLastUnread(cells: seq<Cell>, other: seq<Cell>, m: nat)
    requires |other| == |cells| && m < |cells|
    requires forall i :: 0 <= i < m ==> other[i] == cells[i]
    requires other[m].y == cells[m].y
    ensures PairSum(other, m) == PairSum(cells, m)
  {
    if m > 0 {
      PairSumLastUnread(cells, other, m - 1);
    }
  }

  /** Trapezoids whose heights all have magnitude h, on the non-negative
      axis: the first m add up to h times the widths of the first m cells. */
  lemma {:induction false} TrapConstantHeight(cells: seq<Cell>, h: real, m: nat)
    requires m < |cells|
    requires forall i :: 0 <= i < |cells| ==> 0.0 <= cells[i].x1 && 0.0 <= cells[i].x2
    requires forall i :: 0 <= i < |cells| ==> Abs(cells[i].y) == h
    ensures PairSum(cells, m) == h * LeftWidths(cells, m)
  {
    if m == 0 {
      Zero(h, LeftWidths(cells, m));
    } else {
      TrapConstantHeight(cells, h, m - 1);
      TrapAreaConstant(cells[m - 1], cells[m], h);
      Distribute(PairSum(cells, m - 1), TrapArea(cells[m - 1], cells[m]),
                 LeftWidths(cells, m - 1), Width(cells[m - 1]), LeftWidths(cells, m), h);
    }
  }

  /** Between two cells of height magnitude h, the trapezoid is h times the
      left cell's width. */
  lemma TrapAreaConstant(l: Cell, r: Cell, h: real)
    requires 0.0 <= l.x1 && 0.0 <= l.x2 && Abs(l.y) == h && Abs(r.y) == h
    ensures TrapArea(l, r) == Width(l) * h
  {
  }

  /** On n >= 2 points step apart, all cells but the last span from the
      first point to half a step before the last: the trapezoids, whose
      width is the left cell's, miss half a step. */
  lemma GridTrapWidth(start: real, step: real, n: nat, ys: seq<real>)
    requires |ys| == n >= 2
    ensures CellsOf(Grid(start, step, n), ys, step).Success?
    ensures LeftWidths(CellsOf(Grid(start, step, n), ys, step).value, n - 1) == Point(start, step, n - 1) - start - step / 2.0
  {
    var cells := CellsOf(Grid(start, step, n), ys, step).value;
    GridCellsTiled(start, step, n, ys);
    Telescope(cells);
    LeftWidthsPrefix(cells, n - 1);
    LeftWidthsPrefix(cells, n);
    assert cells[..n] == cells;
  }

  /** The estimate `time_measure(get_trapez, sum_area_trapez, step)`
      returns. */
  ghost function TrapezEstimate(params: map<string, real>, sin: real -> real, step: real): real
    requires step > 0.0
  {
    TrapSum(SweepCells(params, sin, step))
  }

  /** `time_measure(get_trapez, sum_area_trapez, step)` without the clock:
      sample [0, 1000], build the cells and add up the trapezoids. */
  method TimeMeasure(params: map<string, real>, sin: real -> real, step: real) returns (result: real)
    requires step > 0.0
    ensures result == TrapezEstimate(params, sin, step)
  {
    var xs, ys := GetPointsList(params, sin, x => IntegrandValue(params, sin, x), 0.0, 1000.0, step, params);
    CountAbove(0.0, 1000.0, step, 0);
    var cords := GetCells(xs, ys, step);
    result := SumAreaTrapez(cords.value, step);
  }

  /** The estimates of the first n passes. */
  ghost function Estimates(params: map<string, real>, sin: real -> real, n: nat): seq<real>
  {
    seq(n, j requires 0 <= j < n => TrapezEstimate(params, sin, Half(j)))
  }

  lemma EstimatesSnoc(params: map<string, real>, sin: real -> real, n: nat)
    ensures Estimates(params, sin, n) + [TrapezEstimate(params, sin, Half(n))] == Estimates(params, sin, n + 1)
  {
  }

  /** The main loop of trapez.py: 13 passes, the step starting at 1 and
      halved after each pass; the estimate of each pass is recorded with
      its step. */
  method Sweep(params: map<string, real>, sin: real -> real) returns (stepList: seq<real>, results: seq<real>)
    ensures |stepList| == 13 && |results| == 13
    ensures forall i :: 0 <= i < 13 ==> stepList[i] == Half(i)
    ensures results == Estimates(params, sin, 13)
  {
    var step := 1.0;
    stepList, results := [], [];
    for i := 1 to 14
      invariant |stepList| == i - 1 && |results| == i - 1
      invariant step == Half(i - 1)
      invariant forall j :: 0 <= j < i - 1 ==> stepList[j] == Half(j)
      invariant results == Estimates(params, sin, i - 1)
    {
      stepList := stepList + [step];
      var res := TimeMeasure(params, sin, step);
      EstimatesSnoc(params, sin, i - 1);
      results := results + [res];
      step := step * 0.5;
    }
  }

  /** Every pass's estimate is non-negative. */
  lemma TrapezEstimateNonNegative(params: map<string, real>, sin: real -> real, step: real)
    requires step > 0.0
    ensures TrapezEstimate(params, sin, step) >= 0.0
  {
    var n := GridCount(0.0, 1000.0, step);
    var xs := Grid(0.0, step, n);
    GridCellsOnAxis(0.0, step, n, Samples(params, sin, xs));
    var cells := SweepCells(params, sin, step);
    PairSumNonNegative(cells, |cells| - 1);
  }

  /** For an integrand of constant magnitude |k|, pass i gives
      |k| * (1000 - step / 2) instead of the integral 1000 |k|: the first
      trapezoid is given the half width of the first cell. */
  lemma TrapezConstant(params: map<string, real>, sin: real -> real, k: real, i: nat)
    requires forall x :: Abs(IntegrandValue(params, sin, x)) == Abs(k)
    ensures TrapezEstimate(params, sin, Half(i)) == Abs(k) * (1000.0 - Half(i) / 2.0)
  {
    SweepHeights(params, sin, Half(i), k);
    SweepTrapConstant(params, sin, k, i);
  }

  /** Pass i over cells of height magnitude |k|. */
  lemma SweepTrapConstant(params: map<string, real>, sin: real -> real, k: real, i: nat)
    requires forall j :: 0 <= j < |SweepCells(params, sin, Half(i))| ==> Abs(SweepCells(params, sin, Half(i))[j].y) == Abs(k)
    ensures TrapezEstimate(params, sin, Half(i)) == Abs(k) * (1000.0 - Half(i) / 2.0)
  {
    SweepOnAxis(params, sin, Half(i));
    SweepTrapWidth(params, sin, i);
    PassTrapSum(SweepCells(params, sin, Half(i)), k, i);
  }

  /** In pass i the cells but the last are 1000 - step / 2 wide in all. */
  lemma SweepTrapWidth(params: map<string, real>, sin: real -> real, i: nat)
    ensures |SweepCells(params, sin, Half(i))| >= 2
    ensures LeftWidths(SweepCells(params, sin, Half(i)), |SweepCells(params, sin, Half(i))| - 1) == 1000.0 - Half(i) / 2.0
  {
    var n := GridCount(0.0, 1000.0, Half(i));
    SweepGridCount(i);
    GridTrapWidth(0.0, Half(i), n, Samples(params, sin, Grid(0.0, Half(i), n)));
  }

  /** Two or more trapezoids of height magnitude |k| on the non-negative
      axis add up to |k| times the widths of all cells but the last. */
  lemma ConstantTrapSum(cells: seq<Cell>, k: real)
    requires |cells| >= 2
    requires forall j :: 0 <= j < |cells| ==> 0.0 <= cells[j].x1 && 0.0 <= cells[j].x2
    requires forall j :: 0 <= j < |cells| ==> Abs(cells[j].y) == Abs(k)
    ensures TrapSum(cells) == Abs(k) * LeftWidths(cells, |cells| - 1)
  {
    TrapConstantHeight(cells, Abs(k), |cells| - 1);
  }

  /** The same, for cells but the last as wide in all as those of pass i. */
  lemma PassTrapSum(cells: seq<Cell>, k: real, i: nat)
    requires |cells| >= 2
    requires forall j :: 0 <= j < |cells| ==> 0.0 <= cells[j].x1 && 0.0 <= cells[j].x2
    requires forall j :: 0 <= j < |cells| ==> Abs(cells[j].y) == Abs(k)
    requires LeftWidths(cells, |cells| - 1) == 1000.0 - Half(i) / 2.0
    ensures TrapSum(cells) == Abs(k) * (1000.0 - Half(i) / 2.0)
  {
    ConstantTrapSum(cells, k);
  }

  /** The trapezoid rule as `sum_area_trapez` evidently intends it, with
      the `step` it is passed (and never reads) as every trapezoid's
      width. */
  function StepTrapArea(l: Cell, r: Cell, step: real): real
  {
    (Abs(l.y) + Abs(r.y)) * step / 2.0
  }

  /** The first m step-wide trapezoids. */
  function StepPairSum(cells: seq<Cell>, step: real, m: nat): real
    requires m == 0 || m < |cells|
  {
    if m == 0 then 0.0 else StepPairSum(cells, step, m - 1) + StepTrapArea(cells[m - 1], cells[m], step)
  }

  /** All step-wide trapezoids between consecutive cells. */
  function StepTrapSum(cells: seq<Cell>, step: real): real
  {
    if cells == [] then 0.0 else StepPairSum(cells, step, |cells| - 1)
  }

  /** `sum_area_trapez` with the step as the trapezoids' width. */
  method SumAreaTrapezByStep(cords: seq<Cell>, step: real) returns (s: real)
    ensures s == StepTrapSum(cords, step)
  {
    s := 0.0;
    var count := if |cords| > 0 then |cords| - 1 else 0;
    for i := 0 to count
      invariant s == StepPairSum(cords, step, i)
    {
      s := s + StepTrapArea(cords[i], cords[i + 1], step);
    }
  }

  /** Three points one apart with value 1: the rule as written gives 1.5
      for the integral 2 of the constant 1 over [0, 2]; the step-wide rule
      gives 2. */
  lemma UnitCounterexample()
    ensures CellsOf(Grid(0.0, 1.0, 3), [1.0, 1.0, 1.0], 1.0).Success?
    ensures TrapSum(CellsOf(Grid(0.0, 1.0, 3), [1.0, 1.0, 1.0], 1.0).value) == 1.5
    ensures StepTrapSum(CellsOf(Grid(0.0, 1.0, 3), [1.0, 1.0, 1.0], 1.0).value, 1.0) == 2.0
  {
    var ys := [1.0, 1.0, 1.0];
    var cells := CellsOf(Grid(0.0, 1.0, 3), ys, 1.0).value;
    GridPairShortfall(0.0, 1.0, 3, ys, 2);
    assert forall j :: 0 <= j < |cells| ==> Abs(cells[j].y) == 1.0;
    StepPairConstant(cells, 1.0, 1.0, 2);
  }

  /** Step-wide trapezoids whose heights all have magnitude h: the first m
      add up to m steps of height h. */
  lemma {:induction false} StepPairConstant(cells: seq<Cell>, step: real, h: real, m: nat)
    requires m == 0 || m < |cells|
    requires forall j :: 0 <= j < |cells| ==> Abs(cells[j].y) == h
    ensures StepPairSum(cells, step, m) == m as real * (h * step)
  {
    if m > 0 {
      StepPairConstant(cells, step, h, m - 1);
      assert StepTrapArea(cells[m - 1], cells[m], step) == h * step;
    }
  }

  /** With the step-wide rule every pass gives exactly 1000 |k| for an
      integrand of constant magnitude |k|. */
  lemma StepTrapezConstant(params: map<string, real>, sin: real -> real, k: real, i: nat)
    requires forall x :: Abs(IntegrandValue(params, sin, x)) == Abs(k)
    ensures StepTrapSum(SweepCells(params, sin, Half(i)), Half(i)) == 1000.0 * Abs(k)
  {
    SweepHeights(params, sin, Half(i), k);
    SweepGridCount(i);
    StepSweepConstant(SweepCells(params, sin, Half(i)), k, i);
  }

  /** Cells as many as the points of pass i, of height magnitude |k|, give
      1000 |k| under the step-wide rule. */
  lemma StepSweepConstant(cells: seq<Cell>, k: real, i: nat)
    requires |cells| == 1000 * Pow2(i) + 1
    requires forall j :: 0 <= j < |cells| ==> Abs(cells[j].y) == Abs(k)
    ensures StepTrapSum(cells, Half(i)) == 1000.0 * Abs(k)
  {
    var m := 1000 * Pow2(i);
    StepPairConstant(cells, Half(i), Abs(k), m);
    assert m as real * Half(i) == 1000.0 by {
      HalfIsReciprocal(i);
      Scale(m as real, Pow2(i) as real, Half(i));
    }
    Reassociate(m as real, Abs(k), Half(i));
  }

  /** On points step apart from a non-negative start, the first m >= 1
      trapezoids as written fall short of the step-wide ones by exactly the
      first trapezoid as written: only that one is too narrow, half a step
      wide instead of a whole step. */
  lemma {:induction false} GridPairShortfall(start: real, step: real, n: nat, ys: seq<real>, m: nat)
    requires start >= 0.0 && step > 0.0 && |ys| == n && 1 <= m < n
    ensures CellsOf(Grid(start, step, n), ys, step).Success?
    ensures PairSum(CellsOf(Grid(start, step, n), ys, step).value, m)
              + TrapArea(CellsOf(Grid(start, step, n), ys, step).value[0], CellsOf(Grid(start, step, n), ys, step).value[1])
            == StepPairSum(CellsOf(Grid(start, step, n), ys, step).value, step, m)
  {
    var cells := CellsOf(Grid(start, step, n), ys, step).value;
    GridCellsOnAxis(start, step, n, ys);
    if m == 1 {
      FirstTrap(cells[0], cells[1], step);
    } else {
      GridPairShortfall(start, step, n, ys, m - 1);
      InnerTrap(cells[m - 1], cells[m], step);
    }
  }

  /** All trapezoids over n >= 2 points: the step-wide rule exceeds the
      rule as written by its first trapezoid. */
  lemma GridShortfall(start: real, step: real, n: nat, ys: seq<real>)
    requires start >= 0.0 && step > 0.0 && |ys| == n >= 2
    ensures CellsOf(Grid(start, step, n), ys, step).Success?
    ensures TrapSum(CellsOf(Grid(start, step, n), ys, step).value)
              + TrapArea(CellsOf(Grid(start, step, n), ys, step).value[0], CellsOf(Grid(start, step, n), ys, step).value[1])
            == StepTrapSum(CellsOf(Grid(start, step, n), ys, step).value, step)
  {
    GridPairShortfall(start, step, n, ys, n - 1);
  }

  /** A trapezoid whose left cell is half a step wide is a quarter step
      times its heights' magnitudes: half the step-wide one. */
  lemma FirstTrap(l: Cell, r: Cell, step: real)
    requires 0.0 <= l.x1 && l.x2 == l.x1 + step / 2.0 && step > 0.0
    ensures TrapArea(l, r) == (Abs(l.y) + Abs(r.y)) * step / 4.0
    ensures StepTrapArea(l, r, step) == TrapArea(l, r) + TrapArea(l, r)
  {
  }

  /** A trapezoid whose left cell is a whole step wide is step-wide. */
  lemma InnerTrap(l: Cell, r: Cell, step: real)
    requires 0.0 <= l.x1 && l.x2 == l.x1 + step && step > 0.0
    ensures TrapArea(l, r) == StepTrapArea(l, r, step)
  {
  }

  /** For the program's sweep, with any step up to 1000: the first two cells
      are the first half-step cell over 0 and the cell over step, and the
      step-wide rule exceeds the estimate by the first trapezoid, which is
      a quarter step times the integrand's magnitudes at 0 and at step. */
  lemma TrapezShortfall(params: map<string, real>, sin: real -> real, step: real)
    requires 0.0 < step <= 1000.0
    ensures |SweepCells(params, sin, step)| >= 2
    ensures SweepCells(params, sin, step)[0] == Cell(0.0, step / 2.0, IntegrandValue(params, sin, 0.0))
    ensures SweepCells(params, sin, step)[1].y == IntegrandValue(params, sin, step)
    ensures TrapezEstimate(params, sin, step) + TrapArea(SweepCells(params, sin, step)[0], SweepCells(params, sin, step)[1])
            == StepTrapSum(SweepCells(params, sin, step), step)
  {
    var n := GridCount(0.0, 1000.0, step);
    var xs := Grid(0.0, step, n);
    CountAbove(0.0, 1000.0, step, 1);
    assert xs[0] == 0.0 && xs[1] == step;
    GridShortfall(0.0, step, n, Samples(params, sin, xs));
  }
}
